=== FILE: README.md ===
# beaxplorer indexer core, modelled in Dafny

This project models the sequential core of the beaxplorer beacon-chain indexer and of its static-snapshot web client:

- **Block consolidation** (`BlockConsolidation`). This covers the four-way `BlockStatus` with its discriminants and text form. It also covers the per-block operation counts and the `as_model` mapping of a slot into a `blocks` row. A slot's row has one of two shapes: with a block body or without one. `persist` inserts that row.
- **Epoch aggregation** (`EpochConsolidation`). The epoch's counts are sums of the block counts. The validator balance total is clamped to i64, and the average is the integer quotient of that total. `persist` writes the epoch row first, then the block rows in order, and stops at the first failed write.
- **Retrieval loop** (`Retrieval`). Epochs 0, 1, 2, … are retrieved while a shared running flag stays set. The first failure clears the flag. The validator set is refreshed once after the loop.
- **Snapshot writer** (`SnapshotWriter`). This writes one MessagePack artifact per `epochs` row, named after the epoch number. The meta record comes last. A failure to create a file ends the run. An artifact's bytes reach its file only when the buffered writer is dropped, and a failure at that point is discarded. The model keeps these two effects apart (see Findings).
- **Static-snapshot client** (`Pagination`, `StaticEpochs`). This covers the artifact URLs and the resolution of a page request into epoch ids. Unsorted pages use a computed range. Sorted pages join fixed-size index pages, and a descending page also reverses, skips and truncates. Fetching is all-or-nothing.
- **Upstream identifiers** (`Identifiers`). This is the `Display` rendering of `Identifier`.

Helper modules hold things several of these share:

- `Ints`: the saturating `into_i64`/`into_i32` conversions and the truncating `as i32` cast.
- `Decimal`: decimal numerals as `format!("{}")` writes them, with a reference parser.
- `Outcomes`: `Option` and `Result`.
- `Datastore`: the two row shapes and an append-only datastore log.

Side effects are parameters of the model:

- A datastore insert is decided by an `Acceptance` oracle, given the rows already written.
- File creation and the drop-time flush of an artifact are decided by the two oracles of a `FileSystem`.
- An HTTP fetch plus MessagePack decoding is a function from URL to `Result`.
- `retrieve_epoch` is an oracle `epochOk: nat -> bool`.
- The Ctrl-C interrupt is the number of the loop-head check that first sees the flag cleared.
- `Paginate` is a function parameter, because its source is not part of this model.

## Model

| member | source | states |
|---|---|---|
| Ints.ClampToI64 | indexer/src/types/consolidated_block.rs:54-55 | `into_i64` of a u64 never exceeds its input or i64::MAX, keeps every value up to i64::MAX, and saturates to i64::MAX otherwise |
| Ints.ClampToI32 | indexer/src/types/consolidated_block.rs:56 | `into_i32` keeps values up to i32::MAX and saturates above |
| Ints.CastToI32 | indexer/src/types/consolidated_block.rs:77-81 | `len() as i32` is congruent to the length modulo 2^32 and equals it when it is at most i32::MAX |
| Decimal.NatString | node_client/src/models.rs:21 | the decimal text of a u64 is a canonical numeral: only digits, and a leading zero only for 0 itself |
| Decimal.ParseNatString | node_client/src/models.rs:21 | reading the rendered numeral back gives the number |
| Decimal.NatStringInjective | node_client/src/models.rs:21 | two numbers have the same numeral exactly when they are equal |
| Decimal.IntString | indexer/src/db_to_files_indexer.rs:20 | the text of an i64 is a numeral, after a minus sign exactly when the number is negative |
| Decimal.ParseIntString | web_static/src/epochs.rs:140 | reading the text of a signed id back gives the id |
| Decimal.IntStringInjective | web_static/src/epochs.rs:140 | distinct ids have distinct texts |
| Identifiers.Render | node_client/src/models.rs:14-25 | the four keywords render as "head", "genesis", "finalized" and "justified"; `Slot(n)` renders as a canonical numeral that reads back as n; `Root(s)` renders as s verbatim |
| Identifiers.KeywordsAreNotNumerals | node_client/src/models.rs:17-21 | no keyword text is a numeral, so no slot renders as a keyword |
| Identifiers.ParseRender | node_client/src/models.rs:17-21 | every keyword and slot identifier is recovered from its text by the reference parser |
| Identifiers.RenderInjective | node_client/src/models.rs:17-21 | outside roots, two identifiers render alike exactly when they are equal: the keywords are pairwise distinct, slots never render as keywords, and slot rendering is injective |
| Identifiers.ParseRenderRoot | node_client/src/models.rs:22 | a root reads back as a root exactly when its text is neither a keyword nor a u64 numeral, because roots are written without escaping |
| BlockConsolidation.Discriminant | indexer/src/types/consolidated_block.rs:19-24 | every status has a discriminant below 4 |
| BlockConsolidation.DiscriminantRoundTrip | indexer/src/types/consolidated_block.rs:19-24 | the discriminants are exactly 0..3, one per status, in both directions |
| BlockConsolidation.StatusText | indexer/src/types/consolidated_block.rs:26-30 | the text form of a status is its non-empty variant name |
| BlockConsolidation.StatusTextRoundTrip | indexer/src/types/consolidated_block.rs:26-30 | a status column text names a status exactly when that status renders as the text |
| BlockConsolidation.StatusTextInjective | indexer/src/types/consolidated_block.rs:19-30 | the four status texts are pairwise distinct |
| BlockConsolidation.AsModel | indexer/src/types/consolidated_block.rs:53-110 | `as_model` always succeeds. Epoch, slot and proposer are clamped, and `block_root` is kept. The status column reads back as the slot's status. Each count column is the matching getter's value cast to i32. Without a body: empty roots and signature, absent optional columns, zero counts and deposit count. With a body: the body's roots, reveal, graffiti (the same text in both graffiti columns) and eth1 data |
| BlockConsolidation.RowReflectsBody | indexer/src/types/consolidated_block.rs:58-106 | each of the five optional body columns (`randao_reveal`, `graffiti`, `graffiti_text`, `eth1data_deposit_root`, `eth1data_block_hash`) is present exactly when the slot has a body |
| BlockConsolidation.RowCountsMatchGetters | indexer/src/types/consolidated_block.rs:112-145 | when a getter's count fits in an i32, the row's count column equals the getter |
| BlockConsolidation.Count | indexer/src/types/consolidated_block.rs:112-145 | a getter is 0 for a slot without a block and otherwise the length of the body's list of that kind; it is 0 exactly when there is no block or the list is empty |
| BlockConsolidation.Persist | indexer/src/types/consolidated_block.rs:148-156 | `persist` inserts exactly the `as_model` row. It succeeds exactly when the datastore accepts that row, and a rejection leaves the datastore unchanged |
| EpochConsolidation.TotalBalanceBoundsEach | indexer/src/types/consolidated_epoch.rs:90-95 | the total effective balance includes every validator's balance |
| EpochConsolidation.TotalEffectiveBalanceAppend | indexer/src/types/consolidated_epoch.rs:90-95 | the total of a concatenation of validator lists is the sum of their totals |
| EpochConsolidation.TotalEffectiveBalanceSnoc | indexer/src/types/consolidated_epoch.rs:90-95 | adding a validator raises the total by exactly its effective balance |
| EpochConsolidation.TotalEffectiveBalanceZero | indexer/src/types/consolidated_epoch.rs:90-95 | the total is zero exactly when every effective balance is zero |
| EpochConsolidation.SumCountsZero | indexer/src/types/consolidated_epoch.rs:61-88 | an epoch count is zero exactly when every block's count of that kind is zero |
| EpochConsolidation.SumCountsAppend | indexer/src/types/consolidated_epoch.rs:61-88 | the epoch count of two runs of blocks is the sum of their counts |
| EpochConsolidation.SumCountsWithoutBodies | indexer/src/types/consolidated_epoch.rs:61-88 | an epoch none of whose slots has a body counts zero operations of every kind |
| EpochConsolidation.SumCountsBoundsEach | indexer/src/types/consolidated_epoch.rs:61-88 | every block's count is part of the epoch's count |
| EpochConsolidation.AsModel | indexer/src/types/consolidated_epoch.rs:25-59 | blocks and validators counts are the vector lengths cast to i32, and each operation count is the sum of the block counts cast to i32. The total is the clamped sum of effective balances, and the average is that total divided by the validator count. Eligible and voted ether are always present, clamped. The division needs at least one validator |
| EpochConsolidation.AverageBalanceBounds | indexer/src/types/consolidated_epoch.rs:50 | the average balance is the rounded-down quotient: average × n ≤ total < (average + 1) × n, and 0 ≤ average ≤ total |
| EpochConsolidation.EpochCountsMatchBlockRows | indexer/src/types/consolidated_epoch.rs:44-48 | when an epoch count fits in an i32, it equals the sum of that count column over the epoch's block rows |
| EpochConsolidation.BlockRows | indexer/src/types/consolidated_epoch.rs:106-108 | one block row per block, in vector order, each being that block's `as_model` row |
| EpochConsolidation.PersistBlocks | indexer/src/types/consolidated_epoch.rs:106-108 | persisting each block in turn and returning the first error is the ordered insertion of the block rows that stops at the first rejection |
| EpochConsolidation.EpochRows | indexer/src/types/consolidated_epoch.rs:99-108 | an epoch is persisted as exactly one epoch row, its `as_model` row, followed by the block rows |
| EpochConsolidation.Persist | indexer/src/types/consolidated_epoch.rs:99-111 | `persist` is the ordered insertion of (epoch row, block rows in order), as `Datastore.InsertAll` states it, so every row written was accepted given the rows before it. The epoch row comes first whenever anything is written |
| Datastore.Insert | indexer/src/types/consolidated_epoch.rs:102-104 | one insert appends the row exactly when the datastore accepts it, and otherwise changes nothing and reports an error |
| Datastore.InsertAll | indexer/src/types/consolidated_epoch.rs:106-108 | sequential inserts keep the earlier rows and append a prefix of the rows, each of which the datastore accepted given the rows before it. They succeed exactly when every row was written, and on error the next row was rejected |
| Retrieval.Attempts | indexer_cli/src/node_to_files.rs:59-71 | attempt i is for epoch n + i with the oracle's outcome. Every attempt but the last succeeded, and no more attempts are made than the interrupt allows |
| Retrieval.StopsAtFirstFailure | indexer_cli/src/node_to_files.rs:66-69 | after a failure at epoch f, no later epoch is attempted and f is not retried: exactly f + 1 attempts |
| Retrieval.RunsUntilInterrupt | indexer_cli/src/node_to_files.rs:61-65 | without a failure, exactly the epochs before the interrupt are attempted, because the flag is read only between epochs |
| Retrieval.Retrieve | indexer_cli/src/node_to_files.rs:57-81 | the loop's trace is the reference attempts, in order from epoch 0, followed by exactly one validator refresh whatever ended the loop. The counter counts the successful epochs. The loop ends by failure of epoch `retrieved`, or by interrupt |
| SnapshotWriter.PlannedWrites | indexer/src/db_to_files_indexer.rs:18-29 | a complete run writes one artifact per row in query order at the row's epoch path, then meta with `count` equal to the number of rows |
| SnapshotWriter.EpochPath | indexer/src/db_to_files_indexer.rs:20 | an epoch's file lies in the epochs directory, has the `.msg` extension, and its name reads back as the epoch number |
| SnapshotWriter.EpochPathInjective | indexer/src/db_to_files_indexer.rs:20 | two epochs share an artifact path exactly when they are the same epoch |
| SnapshotWriter.MetaPathIsNotAnEpochPath | indexer/src/db_to_files_indexer.rs:20-27 | the meta path never collides with an epoch path |
| SnapshotWriter.WriteAll | indexer/src/db_to_files_indexer.rs:18-29 | the files created follow the plan in order, and each could be created given the files before it. Each artifact's `stored` flag is the outcome of its flush, which does not stop the run. A run that stops short stopped at a file it could not create |
| SnapshotWriter.WriteAllFromScratch | indexer/src/db_to_files_indexer.rs:18-29 | from no files, the files created are a prefix of the plan, each creatable given the files before it and kept or lost as its flush went, and a short run stopped at a failed creation |
| SnapshotWriter.MetaImpliesCreated | indexer/src/db_to_files_indexer.rs:18-29 | a run that created the meta file created every planned file, each epoch file at its epoch's path. It says nothing about their contents |
| SnapshotWriter.AlwaysCreatedCompletes | indexer/src/db_to_files_indexer.rs:19-23 | when every file can be created, the run creates all of them, whatever their flushes do |
| SnapshotWriter.WrittenFiles | indexer/src/db_to_files_indexer.rs:18-29 | a run's result follows the plan, is complete exactly when it has as many files as the plan, and each file was creatable and kept or lost as its flush went |
| SnapshotWriter.PersistEpochs | indexer/src/db_to_files_indexer.rs:12-29 | nothing is created when loading fails. Otherwise the files created are the as-written run: a prefix of the plan, each file creatable given the files before it and its contents kept exactly when its flush succeeded. The run completes exactly when every planned file was created, and otherwise the next planned file could not be created |
| SnapshotWriter.AsWrittenLosesContents | indexer/src/db_to_files_indexer.rs:19-29 | when every file can be created but every epoch artifact's flush fails, the run as written completes with the meta record stored and every epoch artifact lost |
| SnapshotWriter.FlushedWriteAll | indexer/src/db_to_files_indexer.rs:19-29 | with the flush unwrapped, the files created follow the plan and each could be created given the files before it; every file before the last one holds its artifact, and a lost artifact is always the last file of the run |
| SnapshotWriter.FlushedStoredPrefix | indexer/src/db_to_files_indexer.rs:19-29 | with the flush unwrapped, a file that holds its artifact comes after only files created as planned and holding theirs |
| SnapshotWriter.FlushedMetaImpliesAllStored | indexer/src/db_to_files_indexer.rs:19-29 | with the flush unwrapped, a stored meta record means every epoch artifact was stored at its epoch's path, in query order |
| Pagination.UnsortedIds | web_static/src/epochs.rs:96-99 | an unsorted page is the consecutive ids from pageIndex × pageSize + 1, at most pageSize of them, all in 1..totalCount − 1. It never includes totalCount, and it is empty exactly when the start reaches totalCount or pageSize is 0 |
| Pagination.UnsortedPageOf | web_static/src/epochs.rs:97-99 | every id from 1 to totalCount − 1 lies on page (id − 1) / pageSize |
| Pagination.UnsortedPagesDisjoint | web_static/src/epochs.rs:97-99 | no id appears on two unsorted pages or twice on one, so together with the previous row the pages partition 1..totalCount − 1 |
| Pagination.UnsortedExamples | web_static/src/epochs.rs:97-99 | with 25 epochs and pages of 10, page 0 is ids 1..10 and page 2 is ids 21..24 |
| Pagination.DescendingSkip | web_static/src/epochs.rs:80-84 | the skip is 0 on page 0. Otherwise it is in 1..10, pads totalCount to a multiple of 10, and is 10 exactly when totalCount is a multiple of 10 |
| Pagination.Reverse | web_static/src/epochs.rs:87 | reversal keeps the length, and element i is the i-th from the end |
| Pagination.ReverseReverse | web_static/src/epochs.rs:87 | reversing twice gives the original sequence |
| Pagination.DescendingIds | web_static/src/epochs.rs:85-91 | a descending page has min(pageSize, max(0, len − skip)) ids, and id i is the one skip + i places from the end of the ascending ids |
| Pagination.DescendingIsSliceOfReverse | web_static/src/epochs.rs:85-91 | a descending page is the contiguous slice of the reversed ids that starts min(skip, len) in |
| Pagination.FirstDescendingPageIsPrefix | web_static/src/epochs.rs:80-91 | with no skip, a descending page is a prefix of the reversed ids |
| Pagination.Flatten | web_static/src/epochs.rs:75-77 | an id is in the result exactly when it is on some fetched page, and the first page's ids come first, in their order. The order and multiplicity of later pages are stated by `Pagination.FlattenAppend` |
| Pagination.FlattenSingleton | web_static/src/epochs.rs:75-77 | a single page flattens to itself |
| Pagination.FlattenAppend | web_static/src/epochs.rs:75-77 | flattening distributes over concatenation of page lists, so together with the singleton case the result is the pages' ids in page order, each page in its own order and with its own multiplicity |
| Pagination.HeadBelowRest | web_static/src/epochs.rs:75-77 | when pages are ordered, every id of the first page is below every id of the later pages, flattened |
| Pagination.ConcatAscending | web_static/src/epochs.rs:75-77 | two ascending id lists, the first entirely below the second, concatenate to an ascending list |
| Pagination.FlattenAscending | web_static/src/epochs.rs:75-77 | ascending index pages, each entirely below the next, concatenate to strictly ascending ids |
| Pagination.DescendingPageOfOrderedPagesDecreases | web_static/src/epochs.rs:75-91 | a descending page built from such index pages lists its ids in strictly decreasing order |
| Pagination.DescendingIdsDecrease | web_static/src/epochs.rs:85-91 | strictly ascending index ids give a strictly descending page |
| StaticEpochs.EpochUrl | web_static/src/epochs.rs:50 | an epoch URL is the epochs directory under the base URL, then the id text unchanged, then `.msg` |
| StaticEpochs.SortedPageUrl | web_static/src/epochs.rs:122-127 | a sort-index URL lies under `s/{sortId}/` in the epochs directory, and its file name reads back as the page number |
| StaticEpochs.MetaUrl | web_static/src/epochs.rs:169 | the meta URL is `meta.msg` in the epochs directory under the base URL |
| StaticEpochs.EpochUrlInjective | web_static/src/epochs.rs:50 | distinct epoch ids are fetched from distinct `{base}/data/epochs/{id}.msg` URLs |
| StaticEpochs.ArtifactUrlsDisjoint | web_static/src/epochs.rs:122-127 | the sorted-page URL `{base}/data/epochs/s/{sortId}/{page}.msg`, the epoch URL and the meta URL `{base}/data/epochs/meta.msg` are pairwise distinct |
| StaticEpochs.JoinAll | web_static/src/epochs.rs:137-145 | the joined fetch succeeds exactly when every fetch does, and then gives the values in URL order; on failure it gives some failed fetch's error |
| StaticEpochs.Build | web_static/src/epochs.rs:28-34 | building succeeds exactly when the meta fetch does, and keeps the base URL and the fetched count |
| StaticEpochs.IndexPageUrls | web_static/src/epochs.rs:64-73 | index pages are fetched for the numbers `Paginate` gives when asked for the 1-based page pageIndex + 1, in its order |
| StaticEpochs.PageIds | web_static/src/epochs.rs:62-101 | unsorted ids are the computed range. Sorted ids fail exactly when an index-page fetch fails. Ascending ids are the concatenated pages with no slicing. Descending ids are that concatenation reversed, skipped and truncated to pageSize |
| StaticEpochs.EpochUrls | web_static/src/epochs.rs:139-141 | one epoch URL per id, in id order |
| StaticEpochs.Page | web_static/src/epochs.rs:57-115 | a failed id resolution fails the page. Otherwise the page succeeds exactly when every epoch fetch succeeds, and result i is the artifact fetched for id i |

## Behaviour of the code worth knowing

- The unsorted range starts at `pageIndex × pageSize + 1` and ends, exclusively, at `min(start + pageSize, totalCount)`. So id `totalCount` is never requested: 25 epochs in pages of 10 give 21..24 on page 2. Every id on an unsorted page is at least 1 (the `1 <= ids[i]` clause of `Pagination.UnsortedIds`), so epoch 0, the first epoch the retriever fetches, is on no unsorted page. The snapshot writer numbers nothing itself: it names each file after the loaded row's `epoch` column.
- An ascending sorted page is the concatenation of its index pages, with no slicing to the requested window.
- `average_validator_balance` divides by the validator count with no guard, so it panics when there are no validators. `EpochConsolidation.AsModel`, `EpochConsolidation.EpochRows` and `EpochConsolidation.Persist` therefore require at least one validator.
- Nothing in consolidated_block.rs ties the `Proposed` status to the presence of a body: the status is a field its caller fills in.
- The snapshot writer builds no sort-index pages. The chunking code that would have written pages of 10 is commented out.
- `retrieve` refers to `cli`, which is not in its scope. The endpoint only selects the upstream, which the oracle stands for.

## Findings

| source | as written | input that shows it | evidently intended | confidence | as-written member | corrected member |
|---|---|---|---|---|---|---|
| indexer/src/db_to_files_indexer.rs:19-29 | each artifact is serialized into a `BufWriter` that is dropped without `flush()`, and the drop discards a flush error, so only `File::create` can stop the run | the disk fills up after epoch k's file is created: serializing into the buffer succeeds, the flush on drop fails silently, the loop goes on and `meta.msg` is written, leaving artifact k empty | a lost artifact ends the run before the meta record is written, as an explicit `flush().unwrap()` would do | medium, not executed | SnapshotWriter.AsWrittenLosesContents | SnapshotWriter.FlushedMetaImpliesAllStored |

`SnapshotWriter.AsWrittenLosesContents` runs the loop as written (`SnapshotWriter.WriteAll`) on a file system where every file can be created but every epoch artifact's flush fails. The run completes, the meta record reaches its file, and no epoch artifact reaches its own. `SnapshotWriter.FlushedWriteAll` is the writer with the flush unwrapped before each drop. For it, `SnapshotWriter.FlushedMetaImpliesAllStored` proves that a meta record that reached its file implies every epoch artifact reached its own, in query order. `SnapshotWriter.PersistEpochs` models the code as written.

## Left out

- EpochConsolidation.AsModel: `global_participation_rate` and `finalized` are left out. They are f64 division and comparison, and are infinite or NaN when no ether is eligible. The row shape omits both columns.
- EpochConsolidation.AsModel: the total balance is the unbounded sum of effective balances, clamped to i64. A u64 overflow inside the summation is not modelled (it panics in debug builds and wraps in release builds).
- Pagination.UnsortedIds: `usize` overflow of `pageIndex × pageSize + 1` (32-bit on the wasm target) is not modelled.
- StaticEpochs.JoinAll: with concurrent fetches, which error `try_join_all` reports depends on completion order. The model returns the first failure in list order, and its contract promises only the error of some failed fetch.
- Retrieval.Retrieve: a run that never ends (no failure, no interrupt) is not modelled, since the interrupt is a bound. The work inside `retrieve_epoch` (fetch, consolidate, persist) is the oracle. Log lines are not modelled, and the returned `Retriever` is not modelled; `retrieved` exposes the local counter `n`.
- SnapshotWriter.PersistEpochs: serialization into the buffer is taken to succeed. An artifact larger than the 8 KiB buffer would be written through, and a failure there would end the run, but an `epochs` row is far smaller. A file's contents are kept or lost as a whole. Load failures collapse into `None`.
- SnapshotWriter.MetaImpliesCreated: promises only that every epoch file was created, not that its contents reached it, because a failed drop-time flush is discarded (see Findings).
- `process` (directory creation, reset, Ctrl-C handler, task spawning, `Indexer::index`) is process bootstrap and file-system I/O.
- MessagePack encoding, zlib, HTTP (`reqwest`), Diesel and the JavaScript value conversions are opaque effects. Artifacts hold the row value itself.
- `Epochs::get` and `Epochs::meta` only fetch one URL, which `StaticEpochs.EpochUrl` and `StaticEpochs.MetaUrl` model. The JavaScript promise wrapping is not modelled.
- Text columns that the source fills with `to_string().as_bytes()` hold the text itself. The UTF-8 encoding is not modelled, and hash lengths are not constrained.
- `Paginate` and the `IntoClamped*` helpers are not part of this model. `Paginate` is a parameter, and clamping is `min(x, MAX)`.
- `ConsolidatedBlock::new` is the datatype constructor.

=== FILE: consolidated_block.dfy ===
/** A block slot as the indexer consolidates it: the four-way status, the
    per-block operation counts and the mapping into a `blocks` row. */
module BlockConsolidation {
  import opened Ints
  import opened Outcomes
  import opened Datastore

  datatype BlockStatus = Scheduled | Proposed | Missed | Orphaned

  /** The explicit enum discriminant. */
  function Discriminant(s: BlockStatus): (d: nat)
    ensures d < 4
  {
    match s
    case Scheduled => 0
    case Proposed => 1
    case Missed => 2
    case Orphaned => 3
  }

  function FromDiscriminant(d: nat): Option<BlockStatus> {
    if d == 0 then Some(Scheduled)
    else if d == 1 then Some(Proposed)
    else if d == 2 then Some(Missed)
    else if d == 3 then Some(Orphaned)
    else None
  }

  /** The discriminants are exactly 0..3, one per status. */
  lemma DiscriminantRoundTrip(s: BlockStatus, d: nat)
    ensures FromDiscriminant(d) == Some(s) <==> Discriminant(s) == d
    ensures FromDiscriminant(d).Some? <==> d < 4
  {
  }

  /** The `Display` form, which is the derived `Debug` form: the variant's
      name. */
  function StatusText(s: BlockStatus): (t: string)
    ensures |t| > 0
  {
    match s
    case Scheduled => "Scheduled"
    case Proposed => "Proposed"
    case Missed => "Missed"
    case Orphaned => "Orphaned"
  }

  /** Reference reading of the persisted status column. */
  function ParseStatus(t: string): Option<BlockStatus> {
    if t == "Scheduled" then Some(Scheduled)
    else if t == "Proposed" then Some(Proposed)
    else if t == "Missed" then Some(Missed)
    else if t == "Orphaned" then Some(Orphaned)
    else None
  }

  /** The status column names exactly one status, in both directions. */
  lemma StatusTextRoundTrip(s: BlockStatus, t: string)
    ensures ParseStatus(t) == Some(s) <==> StatusText(s) == t
  {
  }

  /** The four texts are pairwise distinct. */
  lemma StatusTextInjective(a: BlockStatus, b: BlockStatus)
    ensures StatusText(a) == StatusText(b) <==> a == b
  {
    StatusTextRoundTrip(a, StatusText(a));
    StatusTextRoundTrip(b, StatusText(b));
  }

  datatype Eth1Data = Eth1Data(depositRoot: Bytes, depositCount: U64, blockHash: Bytes)

  /** A beacon-block body. Each operation is kept as its encoded bytes; only
      the number of operations of each kind matters here. Reveal and graffiti
      are kept as their rendered texts. */
  datatype BlockBody = BlockBody(
    randaoReveal: string,
    graffiti: string,
    eth1Data: Eth1Data,
    proposerSlashings: seq<Bytes>,
    attesterSlashings: seq<Bytes>,
    attestations: seq<Bytes>,
    deposits: seq<Bytes>,
    voluntaryExits: seq<Bytes>)
  {
    function Operations(op: Operation): seq<Bytes> {
      match op
      case ProposerSlashings => proposerSlashings
      case AttesterSlashings => attesterSlashings
      case Attestations => attestations
      case Deposits => deposits
      case VoluntaryExits => voluntaryExits
    }
  }

  datatype BeaconBlock = BeaconBlock(parentRoot: Bytes, stateRoot: Bytes, body: BlockBody)

  /** One slot: the block body when one was retrieved, the root, the
      rendered signature, the status and the proposer index. */
  datatype ConsolidatedBlock = ConsolidatedBlock(
    epoch: U64,
    slot: U64,
    block: Option<BeaconBlock>,
    blockRoot: Bytes,
    signature: string,
    status: BlockStatus,
    proposer: U64)

  /** The `get_*_count` getters, one per operation kind: the length of the
      body's list of that kind, and 0 for a slot without a block. */
  function Count(b: ConsolidatedBlock, op: Operation): (c: nat)
    ensures b.block.None? ==> c == 0
    ensures b.block.Some? ==> c == |b.block.value.body.Operations(op)|
    ensures c == 0 <==> b.block.None? || b.block.value.body.Operations(op) == []
  {
    match b.block
    case None => 0
    case Some(block) => |block.body.Operations(op)|
  }

  /** The row `as_model` builds for a slot. */
  function BlockRowOf(b: ConsolidatedBlock): BlockModel {
    var epoch := ClampToI64(b.epoch);
    var slot := ClampToI64(b.slot);
    var proposer := ClampToI32(b.proposer);
    match b.block
    case Some(block) =>
      BlockModel(
        epoch, slot, b.blockRoot, block.parentRoot, block.stateRoot,
        Some(block.body.randaoReveal), b.signature,
        Some(block.body.graffiti), Some(block.body.graffiti),
        Some(block.body.eth1Data.depositRoot), ClampToI32(block.body.eth1Data.depositCount),
        Some(block.body.eth1Data.blockHash),
        CastToI32(|block.body.proposerSlashings|), CastToI32(|block.body.attesterSlashings|),
        CastToI32(|block.body.attestations|), CastToI32(|block.body.deposits|),
        CastToI32(|block.body.voluntaryExits|),
        proposer, StatusText(b.status))
    case None =>
      BlockModel(
        epoch, slot, b.blockRoot, [], [], None, [], None, None, None, 0, None,
        0, 0, 0, 0, 0, proposer, StatusText(b.status))
  }

  /** `as_model`: the `blocks` row of a slot. It never fails. Identity
      columns are carried in both shapes; the count columns are the getters'
      values cast to i32; a slot without a body gets empty roots and
      signature, absent optional columns and zero counts. */
  function AsModel(b: ConsolidatedBlock): (r: Result<BlockModel, IndexerError>)
    ensures r == Ok(BlockRowOf(b))
    ensures r.value.epoch == ClampToI64(b.epoch) && r.value.slot == ClampToI64(b.slot)
    ensures r.value.proposer == ClampToI32(b.proposer)
    ensures r.value.blockRoot == b.blockRoot
    ensures ParseStatus(r.value.status) == Some(b.status)
    ensures forall op :: r.value.CountOf(op) == CastToI32(Count(b, op))
    ensures b.block.None? ==>
      && r.value.parentRoot == [] && r.value.stateRoot == [] && r.value.signature == []
      && r.value.randaoReveal.None? && r.value.graffiti.None? && r.value.graffitiText.None?
      && r.value.eth1DepositRoot.None? && r.value.eth1BlockHash.None?
      && r.value.eth1DepositCount == 0
      && forall op :: r.value.CountOf(op) == 0
    ensures b.block.Some? ==>
      var block := b.block.value;
      && r.value.parentRoot == block.parentRoot && r.value.stateRoot == block.stateRoot
      && r.value.signature == b.signature
      && r.value.randaoReveal == Some(block.body.randaoReveal)
      && r.value.graffiti == r.value.graffitiText == Some(block.body.graffiti)
      && r.value.eth1DepositRoot == Some(block.body.eth1Data.depositRoot)
      && r.value.eth1BlockHash == Some(block.body.eth1Data.blockHash)
      && r.value.eth1DepositCount == ClampToI32(block.body.eth1Data.depositCount)
  {
    StatusTextRoundTrip(b.status, StatusText(b.status));
    Ok(BlockRowOf(b))
  }

  /** The row records whether a body was retrieved: the optional body
      columns are present exactly when the slot has a body. */
  lemma RowReflectsBody(b: ConsolidatedBlock)
    ensures b.block.Some? <==> AsModel(b).value.randaoReveal.Some?
    ensures b.block.Some? <==> AsModel(b).value.eth1BlockHash.Some?
    ensures b.block.Some? <==> AsModel(b).value.eth1DepositRoot.Some?
    ensures b.block.Some? <==> AsModel(b).value.graffiti.Some?
    ensures b.block.Some? <==> AsModel(b).value.graffitiText.Some?
  {
  }

  /** With realistic body sizes (below 2^31 operations) the count columns
      equal the getters exactly. */
  lemma RowCountsMatchGetters(b: ConsolidatedBlock, op: Operation)
    requires Count(b, op) <= I32_MAX
    ensures AsModel(b).value.CountOf(op) == Count(b, op)
  {
  }

  /** `persist`: inserts exactly the `as_model` row. */
  function Persist(b: ConsolidatedBlock, log: seq<Row>, accepts: Acceptance): (p: Insertion)
    ensures p.outcome.Ok? <==> accepts(log, BlockRow(AsModel(b).value))
    ensures p.outcome.Ok? ==> p.log == log + [BlockRow(AsModel(b).value)]
    ensures p.outcome.Err? ==> p.log == log
  {
    Insert(log, BlockRow(AsModel(b).value), accepts)
  }
}

=== FILE: consolidated_epoch.dfy ===
/** An epoch as the indexer consolidates it: per-epoch aggregates over its
    blocks and validators, the `epochs` row, and the ordered persistence of
    the epoch row followed by its block rows. */
module EpochConsolidation {
  import opened Ints
  import opened Outcomes
  import opened Datastore
  import BlockConsolidation

  type ConsolidatedBlock = BlockConsolidation.ConsolidatedBlock

  /** Only the effective balance of a validator enters the epoch row. */
  datatype ConsolidatedValidator = ConsolidatedValidator(effectiveBalance: U64)

  datatype InclusionData = InclusionData(
    previousEpochActiveGwei: U64,
    previousEpochTargetAttestingGwei: U64)

  datatype ConsolidatedEpoch = ConsolidatedEpoch(
    epoch: U64,
    blocks: seq<ConsolidatedBlock>,
    validators: seq<ConsolidatedValidator>,
    inclusion: InclusionData)

  /** The epoch's `get_*_count`: the sum of the blocks' counts of one kind. */
  function SumCounts(blocks: seq<ConsolidatedBlock>, op: Operation): nat
    decreases |blocks|
  {
    if blocks == [] then 0 else BlockConsolidation.Count(blocks[0], op) + SumCounts(blocks[1..], op)
  }

  /** `get_total_validator_balance`: the sum of effective balances. */
  function TotalEffectiveBalance(validators: seq<ConsolidatedValidator>): nat
    decreases |validators|
  {
    if validators == [] then 0
    else validators[0].effectiveBalance + TotalEffectiveBalance(validators[1..])
  }

  /** Every validator's effective balance is part of the total, so the total
      is at least the largest balance. */
  lemma {:induction false} TotalBalanceBoundsEach(validators: seq<ConsolidatedValidator>, i: nat)
    requires i < |validators|
    ensures validators[i].effectiveBalance <= TotalEffectiveBalance(validators)
    decreases i
  {
    if i > 0 {
      TotalBalanceBoundsEach(validators[1..], i - 1);
    }
  }

  /** An epoch counts no operation of a kind exactly when none of its blocks
      has one. */
  lemma {:induction false} SumCountsZero(blocks: seq<ConsolidatedBlock>, op: Operation)
    ensures SumCounts(blocks, op) == 0 <==>
      forall i :: 0 <= i < |blocks| ==> BlockConsolidation.Count(blocks[i], op) == 0
    decreases |blocks|
  {
    if blocks != [] {
      SumCountsZero(blocks[1..], op);
      assert forall i :: 1 <= i < |blocks| ==> blocks[1..][i - 1] == blocks[i];
    }
  }

  /** The total balance is zero exactly when every effective balance is. */
  lemma {:induction false} TotalEffectiveBalanceZero(validators: seq<ConsolidatedValidator>)
    ensures TotalEffectiveBalance(validators) == 0 <==>
      forall i :: 0 <= i < |validators| ==> validators[i].effectiveBalance == 0
    decreases |validators|
  {
    if validators != [] {
      TotalEffectiveBalanceZero(validators[1..]);
      assert forall i :: 1 <= i < |validators| ==> validators[1..][i - 1] == validators[i];
    }
  }

  /** The total of two groups of validators is the sum of their totals, so
      the total does not depend on how the validator list is split. */
  lemma {:induction false} TotalEffectiveBalanceAppend(a: seq<ConsolidatedValidator>, b: seq<ConsolidatedValidator>)
    ensures TotalEffectiveBalance(a + b) == TotalEffectiveBalance(a) + TotalEffectiveBalance(b)
    decreases |a|
  {
    if a != [] {
      assert (a + b)[1..] == a[1..] + b;
      TotalEffectiveBalanceAppend(a[1..], b);
    } else {
      assert a + b == b;
    }
  }

  /** The total grows by exactly the effective balance of an added
      validator. */
  lemma TotalEffectiveBalanceSnoc(validators: seq<ConsolidatedValidator>, v: ConsolidatedValidator)
    ensures TotalEffectiveBalance(validators + [v]) == TotalEffectiveBalance(validators) + v.effectiveBalance
  {
    TotalEffectiveBalanceAppend(validators, [v]);
    assert TotalEffectiveBalance([v]) == v.effectiveBalance + TotalEffectiveBalance([]);
  }

  lemma {:induction false} SumCountsAppend(a: seq<ConsolidatedBlock>, b: seq<ConsolidatedBlock>, op: Operation)
    ensures SumCounts(a + b, op) == SumCounts(a, op) + SumCounts(b, op)
    decreases |a|
  {
    if a != [] {
      assert (a + b)[1..] == a[1..] + b;
      SumCountsAppend(a[1..], b, op);
    } else {
      assert a + b == b;
    }
  }

  /** An epoch none of whose slots has a body counts no operations. */
  lemma {:induction false} SumCountsWithoutBodies(blocks: seq<ConsolidatedBlock>, op: Operation)
    requires forall i :: 0 <= i < |blocks| ==> blocks[i].block.None?
    ensures SumCounts(blocks, op) == 0
    decreases |blocks|
  {
    if blocks != [] {
      SumCountsWithoutBodies(blocks[1..], op);
    }
  }

  /** Every block's count is part of the epoch's sum. */
  lemma {:induction false} SumCountsBoundsEach(blocks: seq<ConsolidatedBlock>, op: Operation, i: nat)
    requires i < |blocks|
    ensures BlockConsolidation.Count(blocks[i], op) <= SumCounts(blocks, op)
    decreases i
  {
    if i > 0 {
      SumCountsBoundsEach(blocks[1..], op, i - 1);
    }
  }

  lemma DivisionBounds(t: nat, n: nat)
    requires n > 0
    ensures 0 <= t / n <= t
    ensures (t / n) * n <= t < (t / n + 1) * n
  {
    var q, r := t / n, t % n;
    assert t == q * n + r;
    assert (q + 1) * n == q * n + n;
    NoSmallerProduct(q, n);
  }

  lemma NoSmallerProduct(q: nat, n: nat)
    requires n >= 1
    ensures q <= q * n
  {
    assert q * n == q * (n - 1) + q;
  }

  /** The `epochs` row. The integer division by the validator count panics in
      the source when there are no validators, hence the precondition. */
  function AsModel(e: ConsolidatedEpoch): (r: Result<EpochModel, IndexerError>)
    requires |e.validators| > 0
    ensures r.Ok?
    ensures r.value.epoch == ClampToI64(e.epoch)
    ensures r.value.blocksCount == CastToI32(|e.blocks|)
    ensures r.value.validatorsCount == CastToI32(|e.validators|)
    ensures r.value.proposerSlashingsCount == CastToI32(SumCounts(e.blocks, ProposerSlashings))
    ensures r.value.attesterSlashingsCount == CastToI32(SumCounts(e.blocks, AttesterSlashings))
    ensures r.value.attestationsCount == CastToI32(SumCounts(e.blocks, Attestations))
    ensures r.value.depositsCount == CastToI32(SumCounts(e.blocks, Deposits))
    ensures r.value.voluntaryExitsCount == CastToI32(SumCounts(e.blocks, VoluntaryExits))
    ensures r.value.totalValidatorBalance == ClampToI64(TotalEffectiveBalance(e.validators))
    ensures r.value.averageValidatorBalance == r.value.totalValidatorBalance / |e.validators|
    ensures r.value.eligibleEther == Some(ClampToI64(e.inclusion.previousEpochActiveGwei))
    ensures r.value.votedEther == Some(ClampToI64(e.inclusion.previousEpochTargetAttestingGwei))
  {
    var total := ClampToI64(TotalEffectiveBalance(e.validators));
    var n := |e.validators|;
    var average := total / n;
    assert 0 <= average <= I64_MAX by {
      DivisionBounds(total, n);
    }
    Ok(EpochModel(
      ClampToI64(e.epoch),
      CastToI32(|e.blocks|),
      CastToI32(SumCounts(e.blocks, ProposerSlashings)),
      CastToI32(SumCounts(e.blocks, AttesterSlashings)),
      CastToI32(SumCounts(e.blocks, Attestations)),
      CastToI32(SumCounts(e.blocks, Deposits)),
      CastToI32(SumCounts(e.blocks, VoluntaryExits)),
      CastToI32(n),
      average,
      total,
      Some(ClampToI64(e.inclusion.previousEpochActiveGwei)),
      Some(ClampToI64(e.inclusion.previousEpochTargetAttestingGwei))))
  }

  /** The average balance is the integer quotient of the total by the number
      of validators: it is rounded down, never exceeds the total, and is
      within one validator's share of the exact average. */
  lemma AverageBalanceBounds(e: ConsolidatedEpoch)
    requires |e.validators| > 0
    ensures var row := AsModel(e).value;
      && 0 <= row.averageValidatorBalance <= row.totalValidatorBalance
      && row.averageValidatorBalance * |e.validators| <= row.totalValidatorBalance
      && row.totalValidatorBalance < (row.averageValidatorBalance + 1) * |e.validators|
  {
    var row := AsModel(e).value;
    DivisionBounds(row.totalValidatorBalance, |e.validators|);
  }

  /** The block rows of a sequence of slots, in order. */
  function BlockRows(blocks: seq<ConsolidatedBlock>): (rows: seq<Row>)
    ensures |rows| == |blocks|
    ensures forall i :: 0 <= i < |blocks| ==> rows[i] == BlockRow(BlockConsolidation.BlockRowOf(blocks[i]))
  {
    seq(|blocks|, i requires 0 <= i < |blocks| => BlockRow(BlockConsolidation.BlockRowOf(blocks[i])))
  }

  /** The sum of one count column over block rows. */
  function SumRowCounts(rows: seq<Row>, op: Operation): int
    decreases |rows|
  {
    if rows == [] then 0
    else (if rows[0].BlockRow? then rows[0].blockRow.CountOf(op) else 0) + SumRowCounts(rows[1..], op)
  }

  /** The epoch row agrees with its block rows: when the epoch total fits in
      an i32, each count column of the epoch row is the sum of that column
      over the block rows. */
  lemma {:induction false} EpochCountsMatchBlockRows(blocks: seq<ConsolidatedBlock>, op: Operation)
    requires SumCounts(blocks, op) <= I32_MAX
    ensures SumRowCounts(BlockRows(blocks), op) == SumCounts(blocks, op)
    decreases |blocks|
  {
    if blocks != [] {
      SumCountsBoundsEach(blocks, op, 0);
      assert BlockRows(blocks)[1..] == BlockRows(blocks[1..]);
      EpochCountsMatchBlockRows(blocks[1..], op);
    }
  }

  lemma BlockRowsTail(blocks: seq<ConsolidatedBlock>)
    requires blocks != []
    ensures BlockRows(blocks[1..]) == BlockRows(blocks)[1..]
  {
  }

  /** The loop of `persist` over the blocks: each block persists itself, and
      the first failure is returned. */
  function PersistBlocks(blocks: seq<ConsolidatedBlock>, log: seq<Row>, accepts: Acceptance): (p: Insertion)
    ensures p == InsertAll(BlockRows(blocks), log, accepts)
    decreases |blocks|
  {
    if blocks == [] then
      Insertion(log, Ok(()))
    else
      var first := BlockConsolidation.Persist(blocks[0], log, accepts);
      BlockRowsTail(blocks);
      if first.outcome.Err? then first
      else PersistBlocks(blocks[1..], first.log, accepts)
  }

  /** The rows `persist` writes for an epoch, in order: the epoch row, then
      one row per block. */
  function EpochRows(e: ConsolidatedEpoch): (rows: seq<Row>)
    requires |e.validators| > 0
    ensures |rows| == 1 + |e.blocks|
    ensures rows[0] == EpochRow(AsModel(e).value)
    ensures rows[1..] == BlockRows(e.blocks)
  {
    var rows := [EpochRow(AsModel(e).value)] + BlockRows(e.blocks);
    assert rows[1..] == BlockRows(e.blocks);
    rows
  }

  /** `persist`: the epoch row first, then the block rows in slot order; the
      first rejected write ends it with an error and the rows written before
      it stay in the datastore. That is the ordered insertion `InsertAll` of
      the epoch's rows, whose contract says every row written was accepted,
      success means every row was written, and an error means the next row
      was rejected. */
  function Persist(e: ConsolidatedEpoch, log: seq<Row>, accepts: Acceptance): (p: Insertion)
    requires |e.validators| > 0
    ensures p == InsertAll(EpochRows(e), log, accepts)
    ensures p.log != log ==> p.log[|log|] == EpochRow(AsModel(e).value)
  {
    var rows := EpochRows(e);
    var first := Insert(log, rows[0], accepts);
    var p := if first.outcome.Err? then first else PersistBlocks(e.blocks, first.log, accepts);
    assert p == InsertAll(rows, log, accepts);
    p
  }
}

=== FILE: datastore.dfy ===
/** The relational rows the indexer inserts (the `BlockModel` and
    `EpochModel` shapes) and an abstract datastore: an append-only log of
    inserted rows, where an insertion is decided by an oracle. */
module Datastore {
  import opened Ints
  import opened Outcomes

  type Byte = x: int | 0 <= x < 256
  type Bytes = seq<Byte>

  /** The five kinds of block-body operation whose numbers are stored as
      count columns of both row shapes. */
  datatype Operation =
    | ProposerSlashings
    | AttesterSlashings
    | Attestations
    | Deposits
    | VoluntaryExits

  /** One row of the `blocks` table. Columns the source fills with the bytes
      of a rendered text (`randao_reveal`, `signature`, `graffiti`) hold that
      text here. */
  datatype BlockModel = BlockModel(
    epoch: I64,
    slot: I64,
    blockRoot: Bytes,
    parentRoot: Bytes,
    stateRoot: Bytes,
    randaoReveal: Option<string>,
    signature: string,
    graffiti: Option<string>,
    graffitiText: Option<string>,
    eth1DepositRoot: Option<Bytes>,
    eth1DepositCount: I32,
    eth1BlockHash: Option<Bytes>,
    proposerSlashingsCount: I32,
    attesterSlashingsCount: I32,
    attestationsCount: I32,
    depositsCount: I32,
    voluntaryExitsCount: I32,
    proposer: I32,
    status: string)
  {
    function CountOf(op: Operation): I32 {
      match op
      case ProposerSlashings => proposerSlashingsCount
      case AttesterSlashings => attesterSlashingsCount
      case Attestations => attestationsCount
      case Deposits => depositsCount
      case VoluntaryExits => voluntaryExitsCount
    }
  }

  /** One row of the `epochs` table, without the two floating-point columns
      (`global_participation_rate`, `finalized`). */
  datatype EpochModel = EpochModel(
    epoch: I64,
    blocksCount: I32,
    proposerSlashingsCount: I32,
    attesterSlashingsCount: I32,
    attestationsCount: I32,
    depositsCount: I32,
    voluntaryExitsCount: I32,
    validatorsCount: I32,
    averageValidatorBalance: I64,
    totalValidatorBalance: I64,
    eligibleEther: Option<I64>,
    votedEther: Option<I64>)
  {
    function CountOf(op: Operation): I32 {
      match op
      case ProposerSlashings => proposerSlashingsCount
      case AttesterSlashings => attesterSlashingsCount
      case Attestations => attestationsCount
      case Deposits => depositsCount
      case VoluntaryExits => voluntaryExitsCount
    }
  }

  datatype Row = EpochRow(epochRow: EpochModel) | BlockRow(blockRow: BlockModel)

  datatype IndexerError = DatabaseError

  /** Whether the datastore accepts a row, given the rows inserted before it. */
  type Acceptance = (seq<Row>, Row) -> bool

  /** The rows in the datastore after a write, and the write's outcome. */
  datatype Insertion = Insertion(log: seq<Row>, outcome: Result<(), IndexerError>)

  /** One `insert_into(..).execute(..)`: an accepted row is appended, a
      rejected one leaves the datastore as it was and reports an error. */
  function Insert(log: seq<Row>, row: Row, accepts: Acceptance): (ins: Insertion)
    ensures ins.outcome.Ok? <==> accepts(log, row)
    ensures ins.outcome.Ok? ==> ins.log == log + [row]
    ensures ins.outcome.Err? ==> ins.log == log
  {
    if accepts(log, row) then Insertion(log + [row], Ok(())) else Insertion(log, Err(DatabaseError))
  }

  /** Inserts rows one after the other and stops at the first rejected one:
      every row written was accepted when it was inserted, the datastore
      keeps that accepted prefix, and on an error the next row was the one
      rejected. */
  function InsertAll(rows: seq<Row>, log: seq<Row>, accepts: Acceptance): (p: Insertion)
    ensures |log| <= |p.log| <= |log| + |rows|
    ensures p.log == log + rows[..|p.log| - |log|]
    ensures p.outcome.Ok? <==> |p.log| == |log| + |rows|
    ensures p.outcome.Err? ==> !accepts(p.log, rows[|p.log| - |log|])
    ensures forall j :: 0 <= j < |p.log| - |log| ==> accepts(log + rows[..j], rows[j])
    decreases |rows|
  {
    if rows == [] then Insertion(log, Ok(()))
    else
      var first := Insert(log, rows[0], accepts);
      if first.outcome.Err? then first
      else
        var rest := InsertAll(rows[1..], first.log, accepts);
        var k := |rest.log| - |first.log|;
        assert rows[..k + 1] == [rows[0]] + rows[1..][..k];
        forall j | 0 <= j < |rest.log| - |log|
          ensures accepts(log + rows[..j], rows[j])
        {
          if j == 0 {
            assert log + rows[..j] == log;
          } else {
            assert first.log == log + [rows[0]];
            assert log + rows[..j] == first.log + rows[1..][..j - 1];
            assert rows[j] == rows[1..][j - 1];
          }
        }
        rest
  }
}

=== FILE: decimal.dfy ===
/** Decimal numerals as Rust's `Display` writes integers, with a reference
    parser that inverts them. Used for slot identifiers, artifact file
    names and artifact URLs. */
module Decimal {

  predicate IsDigit(c: char) {
    '0' <= c <= '9'
  }

  predicate AllDigits(s: string) {
    forall i :: 0 <= i < |s| ==> IsDigit(s[i])
  }

  /** A canonical numeral: at least one digit, and no leading zero unless the
      numeral is "0" itself. */
  predicate IsNumeral(s: string) {
    |s| >= 1 && AllDigits(s) && (s[0] == '0' ==> |s| == 1)
  }

  /** The text of a signed integer: a canonical numeral, optionally after a
      minus sign. */
  predicate IsIntText(s: string) {
    IsNumeral(s) || (|s| >= 2 && s[0] == '-' && IsNumeral(s[1..]))
  }

  function DigitValue(c: char): nat
    requires IsDigit(c)
  {
    (c as int) - ('0' as int)
  }

  function DigitChar(d: nat): (c: char)
    requires d < 10
    ensures IsDigit(c) && DigitValue(c) == d
  {
    (('0' as int) + d) as char
  }

  /** `format!("{}", n)` for an unsigned integer. */
  function NatString(n: nat): (s: string)
    ensures IsNumeral(s)
    ensures s[0] == '0' <==> n == 0
    decreases n
  {
    if n < 10 then [DigitChar(n)] else NatString(n / 10) + [DigitChar(n % 10)]
  }

  /** `format!("{}", i)` for a signed integer. */
  function IntString(i: int): (s: string)
    ensures IsIntText(s)
    ensures IsDigit(s[0]) || s[0] == '-'
    ensures s[0] == '-' <==> i < 0
  {
    if i < 0 then
      var s := "-" + NatString(-i);
      assert s[1..] == NatString(-i);
      s
    else NatString(i)
  }

  /** Reference reading of a string of digits as a number. */
  function ParseNat(s: string): nat
    requires AllDigits(s)
    decreases |s|
  {
    if s == [] then 0 else 10 * ParseNat(s[..|s| - 1]) + DigitValue(s[|s| - 1])
  }

  /** Reference reading of a signed numeral. */
  function ParseInt(s: string): int
    requires IsIntText(s)
  {
    if |s| >= 1 && s[0] == '-' then -(ParseNat(s[1..]) as int) else ParseNat(s)
  }

  lemma {:induction false} ParseNatString(n: nat)
    ensures ParseNat(NatString(n)) == n
    decreases n
  {
    var s := NatString(n);
    if n < 10 {
      assert s[..|s| - 1] == [];
    } else {
      assert s[..|s| - 1] == NatString(n / 10);
      ParseNatString(n / 10);
    }
  }

  lemma ParseIntString(i: int)
    ensures ParseInt(IntString(i)) == i
  {
    if i < 0 {
      assert IntString(i)[1..] == NatString(-i);
      ParseNatString(-i);
    } else {
      ParseNatString(i);
    }
  }

  /** Distinct numbers have distinct numerals. */
  lemma NatStringInjective(a: nat, b: nat)
    ensures NatString(a) == NatString(b) <==> a == b
  {
    ParseNatString(a);
    ParseNatString(b);
  }

  /** Distinct signed integers have distinct texts. */
  lemma IntStringInjective(a: int, b: int)
    ensures IntString(a) == IntString(b) <==> a == b
  {
    ParseIntString(a);
    ParseIntString(b);
  }

  /** Texts that agree on a prefix and then differ in their next character
      are distinct. */
  lemma DistinctAfterPrefix(prefix: string, a: string, b: string)
    requires |a| >= 1 && |b| >= 1 && a[0] != b[0]
    ensures prefix + a != prefix + b
  {
    assert (prefix + a)[|prefix|] == a[0];
    assert (prefix + b)[|prefix|] == b[0];
  }

  /** A text framed by a fixed prefix and suffix can be recovered from the
      framed text. */
  lemma FrameCancels(prefix: string, a: string, b: string, suffix: string)
    ensures prefix + a + suffix == prefix + b + suffix <==> a == b
  {
    if prefix + a + suffix == prefix + b + suffix {
      assert a == (prefix + a + suffix)[|prefix|..|prefix| + |a|];
      assert b == (prefix + b + suffix)[|prefix|..|prefix| + |b|];
    }
  }
}

=== FILE: identifier.dfy ===
/** The identifiers the upstream beacon-node API accepts in place of a
    state or block id, and the text each one is sent as. */
module Identifiers {
  import opened Ints
  import opened Decimal

  datatype Identifier =
    | Head
    | Genesis
    | Finalized
    | Justified
    | Slot(slot: U64)
    | Root(root: string)

  /** The `Display` form: a keyword, the slot as a decimal numeral, or the
      root text unchanged. */
  function Render(id: Identifier): (s: string)
    ensures id.Head? ==> s == "head"
    ensures id.Genesis? ==> s == "genesis"
    ensures id.Finalized? ==> s == "finalized"
    ensures id.Justified? ==> s == "justified"
    ensures id.Slot? ==> IsNumeral(s) && ParseNat(s) == id.slot
    ensures id.Root? ==> s == id.root
  {
    match id
    case Head => "head"
    case Genesis => "genesis"
    case Finalized => "finalized"
    case Justified => "justified"
    case Slot(n) => ParseNatString(n); NatString(n)
    case Root(r) => r
  }

  predicate IsKeyword(s: string) {
    s == "head" || s == "genesis" || s == "finalized" || s == "justified"
  }

  /** Reference reading of an identifier text: the inverse of `Render` on
      every identifier that is not a root. */
  function Parse(s: string): Identifier {
    if s == "head" then Head
    else if s == "genesis" then Genesis
    else if s == "finalized" then Finalized
    else if s == "justified" then Justified
    else if IsNumeral(s) && ParseNat(s) <= U64_MAX then Slot(ParseNat(s))
    else Root(s)
  }

  /** No keyword is a numeral, so a slot never renders as a keyword. */
  lemma KeywordsAreNotNumerals(s: string)
    requires IsKeyword(s)
    ensures !IsNumeral(s)
  {
    assert !IsDigit(s[0]);
  }

  /** Every keyword and slot identifier is read back from its text. */
  lemma ParseRender(id: Identifier)
    requires !id.Root?
    ensures Parse(Render(id)) == id
  {
    if id.Slot? {
      var s := Render(id);
      if IsKeyword(s) {
        KeywordsAreNotNumerals(s);
      }
    }
  }

  /** Apart from roots, distinct identifiers render to distinct texts: the
      four keywords are pairwise distinct, no slot renders as a keyword and
      distinct slots give distinct numerals. */
  lemma RenderInjective(a: Identifier, b: Identifier)
    requires !a.Root? && !b.Root?
    ensures Render(a) == Render(b) <==> a == b
  {
    ParseRender(a);
    ParseRender(b);
  }

  /** A root is read back as itself exactly when its text is neither a
      keyword nor the numeral of a slot: root texts are passed through
      without escaping. */
  lemma ParseRenderRoot(r: string)
    ensures Parse(Render(Root(r))) == Root(r)
        <==> !IsKeyword(r) && !(IsNumeral(r) && ParseNat(r) <= U64_MAX)
  {
  }
}

=== FILE: ints.dfy ===
/** Machine integers of the indexer, written out over unbounded `int`:
    the saturating `into_i64`/`into_i32` conversions and the truncating
    `as i32` cast of a length. */
module Ints {

  const I32_MAX: int := 0x7fff_ffff
  const I64_MAX: int := 0x7fff_ffff_ffff_ffff
  const U64_MAX: int := 0xffff_ffff_ffff_ffff
  const TWO_32: int := 0x1_0000_0000

  type U64 = x: int | 0 <= x <= U64_MAX
  type I64 = x: int | -I64_MAX - 1 <= x <= I64_MAX
  type I32 = x: int | -I32_MAX - 1 <= x <= I32_MAX

  function Min(a: int, b: int): int {
    if a <= b then a else b
  }

  function Max(a: int, b: int): int {
    if a <= b then b else a
  }

  /** A saturating conversion of an unsigned value to i64: values in range are
      kept, larger ones become i64::MAX. */
  function ClampToI64(x: nat): (r: I64)
    ensures 0 <= r <= x
    ensures r == x <==> x <= I64_MAX
    ensures r != x ==> r == I64_MAX
  {
    if x <= I64_MAX then x else I64_MAX
  }

  /** A saturating conversion of an unsigned value to i32. */
  function ClampToI32(x: nat): (r: I32)
    ensures 0 <= r <= x
    ensures r == x <==> x <= I32_MAX
    ensures r != x ==> r == I32_MAX
  {
    if x <= I32_MAX then x else I32_MAX
  }

  /** Rust's `n as i32` on a length: keeps the low 32 bits and reads them as
      a two's-complement number. */
  function CastToI32(n: nat): (r: I32)
    ensures (n - r) % TWO_32 == 0
    ensures n <= I32_MAX ==> r == n
  {
    var low := n % TWO_32;
    assert n == (n / TWO_32) * TWO_32 + low;
    if low <= I32_MAX then low else low - TWO_32
  }
}

=== FILE: outcomes.dfy ===
/** Failure-carrying values shared by the whole model: an optional value and
    a result that is either a value or an error. */
module Outcomes {

  datatype Option<+T> = None | Some(value: T)

  datatype Result<+T, +E> = Ok(value: T) | Err(error: E)
}

=== FILE: pagination.dfy ===
/** The page arithmetic of the static-snapshot client: the id range of an
    unsorted page, and the reversal, skip and truncation that turn
    concatenated ascending index pages into a descending page. */
module Pagination {
  import opened Ints

  /** The fixed number of ids on one precomputed sort-index page. */
  const IndexPageSize: nat := 10

  /** The ids of the half-open range `lo..hi`, empty when `lo >= hi`. */
  function Range(lo: int, hi: int): (r: seq<int>)
    ensures |r| == Max(0, hi - lo)
    ensures forall i :: 0 <= i < |r| ==> r[i] == lo + i
  {
    if lo < hi then seq(hi - lo, i requires 0 <= i < hi - lo => lo + i) else []
  }

  /** The ids of an unsorted page: the range from `pageIndex * pageSize + 1`
      up to, but excluding, `min(start + pageSize, totalCount)`. */
  function UnsortedIds(totalCount: nat, pageIndex: nat, pageSize: nat): (ids: seq<int>)
    ensures |ids| <= pageSize
    ensures |ids| == Max(0, Min(pageSize, totalCount - (pageIndex * pageSize + 1)))
    ensures forall i :: 0 <= i < |ids| ==> ids[i] == pageIndex * pageSize + 1 + i
    ensures forall i :: 0 <= i < |ids| ==> 1 <= ids[i] < totalCount
    ensures |ids| == 0 <==> pageSize == 0 || pageIndex * pageSize + 1 >= totalCount
  {
    var start := pageIndex * pageSize + 1;
    Range(start, Min(start + pageSize, totalCount))
  }

  lemma ProductStep(p: nat, q: nat, s: nat)
    requires p < q
    ensures p * s + s <= q * s
  {
    assert q * s == p * s + (q - p) * s;
    assert (q - p) * s >= s by {
      assert (q - p) * s == s + (q - p - 1) * s;
    }
  }

  /** Every id from 1 to `totalCount - 1` is on the unsorted page
      `(id - 1) / pageSize`, at position `(id - 1) % pageSize`. */
  lemma UnsortedPageOf(totalCount: nat, pageSize: nat, id: int)
    requires pageSize > 0 && 1 <= id < totalCount
    ensures var page := UnsortedIds(totalCount, (id - 1) / pageSize, pageSize);
      (id - 1) % pageSize < |page| && page[(id - 1) % pageSize] == id
  {
    var p, k := (id - 1) / pageSize, (id - 1) % pageSize;
    assert id - 1 == p * pageSize + k;
  }

  /** No id is on two unsorted pages, nor twice on one: together with
      `UnsortedPageOf`, the pages partition the ids 1 .. totalCount - 1. */
  lemma UnsortedPagesDisjoint(totalCount: nat, pageSize: nat, p: nat, q: nat, i: nat, j: nat)
    requires i < |UnsortedIds(totalCount, p, pageSize)| && j < |UnsortedIds(totalCount, q, pageSize)|
    requires UnsortedIds(totalCount, p, pageSize)[i] == UnsortedIds(totalCount, q, pageSize)[j]
    ensures p == q && i == j
  {
    if p < q {
      ProductStep(p, q, pageSize);
    } else if q < p {
      ProductStep(q, p, pageSize);
    }
  }

  /** The unsorted pages of 25 epochs in pages of 10: the first holds ids
      1 to 10 and the third ids 21 to 24. */
  lemma UnsortedExamples()
    ensures UnsortedIds(25, 0, 10) == [1, 2, 3, 4, 5, 6, 7, 8, 9, 10]
    ensures UnsortedIds(25, 2, 10) == [21, 22, 23, 24]
  {
  }

  /** How many of the reversed ids a descending page drops before taking
      `pageSize` of them: none on the first page; otherwise what pads
      `totalCount` up to the next multiple of ten strictly above it. */
  function DescendingSkip(totalCount: nat, pageIndex: nat): (skip: nat)
    ensures pageIndex == 0 ==> skip == 0
    ensures pageIndex > 0 ==> 1 <= skip <= IndexPageSize
    ensures pageIndex > 0 ==> (totalCount + skip) % IndexPageSize == 0
    ensures pageIndex > 0 ==> (skip == IndexPageSize <==> totalCount % IndexPageSize == 0)
  {
    if pageIndex == 0 then 0 else IndexPageSize - totalCount % IndexPageSize
  }

  /** `Iterator::rev`. */
  function Reverse<T>(s: seq<T>): (r: seq<T>)
    ensures |r| == |s|
    ensures forall i :: 0 <= i < |s| ==> r[i] == s[|s| - 1 - i]
    decreases |s|
  {
    if s == [] then [] else Reverse(s[1..]) + [s[0]]
  }

  lemma ReverseReverse<T>(s: seq<T>)
    ensures Reverse(Reverse(s)) == s
  {
  }

  /** `Iterator::skip`: nothing is left once `n` reaches the length. */
  function Skip<T>(s: seq<T>, n: nat): seq<T> {
    if n >= |s| then [] else s[n..]
  }

  /** `Iterator::take`: everything is kept when `n` reaches the length. */
  function Take<T>(s: seq<T>, n: nat): seq<T> {
    if n >= |s| then s else s[..n]
  }

  /** A descending page: reverse the ascending ids, skip `skip` of them and
      keep at most `pageSize`. The i-th id is the one `skip + i` places from
      the end of the ascending ids. */
  function DescendingIds(ascending: seq<int>, skip: nat, pageSize: nat): (ids: seq<int>)
    ensures |ids| <= pageSize
    ensures |ids| == Min(pageSize, Max(0, |ascending| - skip))
    ensures forall i :: 0 <= i < |ids| ==> ids[i] == ascending[|ascending| - 1 - skip - i]
  {
    Take(Skip(Reverse(ascending), skip), pageSize)
  }

  /** A descending page is a contiguous slice of the reversed ids, starting
      `skip` places in. */
  lemma DescendingIsSliceOfReverse(ascending: seq<int>, skip: nat, pageSize: nat)
    ensures var ids := DescendingIds(ascending, skip, pageSize);
      var start := Min(skip, |ascending|);
      start + |ids| <= |ascending| && ids == Reverse(ascending)[start..start + |ids|]
  {
  }

  /** Without a skip, a descending page is a prefix of the reversed ids. */
  lemma FirstDescendingPageIsPrefix(ascending: seq<int>, pageSize: nat)
    ensures DescendingIds(ascending, 0, pageSize) <= Reverse(ascending)
  {
    DescendingIsSliceOfReverse(ascending, 0, pageSize);
  }

  predicate StrictlyAscending(s: seq<int>) {
    forall i, j :: 0 <= i < j < |s| ==> s[i] < s[j]
  }

  /** Every id of an earlier page is below every id of a later page. */
  predicate PagesOrdered(pages: seq<seq<int>>) {
    forall i, j, x, y :: 0 <= i < j < |pages| && x in pages[i] && y in pages[j] ==> x < y
  }

  /** Ids in strictly ascending order give a strictly descending page. */
  lemma DescendingIdsDecrease(ascending: seq<int>, skip: nat, pageSize: nat)
    requires StrictlyAscending(ascending)
    ensures var ids := DescendingIds(ascending, skip, pageSize);
      forall i, j :: 0 <= i < j < |ids| ==> ids[i] > ids[j]
  {
  }

  /** `flatten().collect()` of the fetched index pages: every id of every
      page, and nothing else, with the first page in front. */
  function Flatten(pages: seq<seq<int>>): (ids: seq<int>)
    ensures forall x :: x in ids <==> exists i :: 0 <= i < |pages| && x in pages[i]
    ensures pages != [] ==> |pages[0]| <= |ids| && ids[..|pages[0]|] == pages[0]
    decreases |pages|
  {
    if pages == [] then [] else
      var rest := Flatten(pages[1..]);
      assert forall x :: (exists i :: 1 <= i < |pages| && x in pages[i]) ==> x in rest by {
        forall x | exists i :: 1 <= i < |pages| && x in pages[i]
          ensures x in rest
        {
          var i :| 1 <= i < |pages| && x in pages[i];
          assert pages[1..][i - 1] == pages[i];
        }
      }
      pages[0] + rest
  }

  /** A single page flattens to itself. */
  lemma FlattenSingleton(page: seq<int>)
    ensures Flatten([page]) == page
  {
    assert [page][1..] == [];
  }

  /** Flattening concatenates in page order: the ids of earlier pages come
      first, each page's ids in their own order and with their own
      multiplicity. With `FlattenSingleton` this pins `Flatten` as the
      in-order concatenation of the pages. */
  lemma {:induction false} FlattenAppend(a: seq<seq<int>>, b: seq<seq<int>>)
    ensures Flatten(a + b) == Flatten(a) + Flatten(b)
    decreases |a|
  {
    if a == [] {
      assert a + b == b;
    } else {
      assert (a + b)[1..] == a[1..] + b;
      FlattenAppend(a[1..], b);
    }
  }

  /** With ordered pages, every id of the first page is below every id the
      later pages flatten to. */
  lemma HeadBelowRest(pages: seq<seq<int>>)
    requires pages != [] && PagesOrdered(pages)
    ensures forall x, y :: x in pages[0] && y in Flatten(pages[1..]) ==> x < y
  {
    forall x, y | x in pages[0] && y in Flatten(pages[1..])
      ensures x < y
    {
      var j :| 0 <= j < |pages[1..]| && y in pages[1..][j];
      assert y in pages[j + 1];
    }
  }

  /** Two ascending sequences, the first entirely below the second,
      concatenate to an ascending sequence. */
  lemma ConcatAscending(a: seq<int>, b: seq<int>)
    requires StrictlyAscending(a) && StrictlyAscending(b)
    requires forall x, y :: x in a && y in b ==> x < y
    ensures StrictlyAscending(a + b)
  {
    var s := a + b;
    forall i, j | 0 <= i < j < |s|
      ensures s[i] < s[j]
    {
      if j < |a| {
        assert s[i] == a[i] && s[j] == a[j];
      } else if i >= |a| {
        assert s[i] == b[i - |a|] && s[j] == b[j - |a|];
      } else {
        assert s[i] == a[i] && s[i] in a;
        assert s[j] == b[j - |a|] && s[j] in b;
      }
    }
  }

  /** Ascending index pages, each below the next, flatten to ascending ids:
      the condition `DescendingIdsDecrease` asks of its input. */
  lemma {:induction false} FlattenAscending(pages: seq<seq<int>>)
    requires forall i :: 0 <= i < |pages| ==> StrictlyAscending(pages[i])
    requires PagesOrdered(pages)
    ensures StrictlyAscending(Flatten(pages))
    decreases |pages|
  {
    if pages != [] {
      var tail := pages[1..];
      assert forall i :: 0 <= i < |tail| ==> tail[i] == pages[i + 1];
      assert PagesOrdered(tail) by {
        forall i, j, x, y | 0 <= i < j < |tail| && x in tail[i] && y in tail[j]
          ensures x < y
        {
          assert x in pages[i + 1] && y in pages[j + 1];
        }
      }
      FlattenAscending(tail);
      assert Flatten(pages) == pages[0] + Flatten(tail);
      HeadBelowRest(pages);
      ConcatAscending(pages[0], Flatten(tail));
    }
  }

  /** A descending page built from ascending, ordered index pages lists its
      ids in strictly decreasing order. */
  lemma DescendingPageOfOrderedPagesDecreases(pages: seq<seq<int>>, skip: nat, pageSize: nat)
    requires forall i :: 0 <= i < |pages| ==> StrictlyAscending(pages[i])
    requires PagesOrdered(pages)
    ensures var ids := DescendingIds(Flatten(pages), skip, pageSize);
      forall i, j :: 0 <= i < j < |ids| ==> ids[i] > ids[j]
  {
    FlattenAscending(pages);
    DescendingIdsDecrease(Flatten(pages), skip, pageSize);
  }
}

=== FILE: retrieval.dfy ===
/** The retrieval loop of the file indexer: epochs are retrieved in order
    from 0 while a shared running flag is set; the first failure clears the
    flag, and the validator set is refreshed once after the loop.

    The upstream is an oracle `epochOk` saying whether retrieving epoch `n`
    succeeds. The external interrupt is `interruptAt`: the flag is first seen
    cleared by the check at the loop head made before attempt number
    `interruptAt`. */
module Retrieval {

  datatype Event =
    | EpochAttempt(epoch: nat, ok: bool)
    | ValidatorRefresh(ok: bool)

  /** Reference behaviour of the loop from epoch `n` on, when `n` attempts
      have been made and all of them succeeded. */
  function Attempts(epochOk: nat -> bool, interruptAt: nat, n: nat): (trace: seq<Event>)
    ensures |trace| <= interruptAt - n || (n >= interruptAt && trace == [])
    ensures forall i :: 0 <= i < |trace| ==> trace[i] == EpochAttempt(n + i, epochOk(n + i))
    ensures forall i :: 0 <= i < |trace| - 1 ==> trace[i].ok
    decreases interruptAt - n
  {
    if n >= interruptAt then []
    else if epochOk(n) then [EpochAttempt(n, true)] + Attempts(epochOk, interruptAt, n + 1)
    else [EpochAttempt(n, false)]
  }

  /** The loop stops right after the first failing epoch, whatever comes
      after it: that epoch is the last one attempted and is not retried. */
  lemma {:induction false} StopsAtFirstFailure(epochOk: nat -> bool, interruptAt: nat, n: nat, failed: nat)
    requires n <= failed < interruptAt
    requires !epochOk(failed)
    requires forall j :: n <= j < failed ==> epochOk(j)
    ensures |Attempts(epochOk, interruptAt, n)| == failed - n + 1
    decreases failed - n
  {
    if n < failed {
      StopsAtFirstFailure(epochOk, interruptAt, n + 1, failed);
    }
  }

  /** Without a failure before the interrupt, exactly the epochs before the
      interrupt are attempted, all successfully. */
  lemma {:induction false} RunsUntilInterrupt(epochOk: nat -> bool, interruptAt: nat, n: nat)
    requires n <= interruptAt
    requires forall j :: n <= j < interruptAt ==> epochOk(j)
    ensures |Attempts(epochOk, interruptAt, n)| == interruptAt - n
    decreases interruptAt - n
  {
    if n < interruptAt {
      RunsUntilInterrupt(epochOk, interruptAt, n + 1);
    }
  }

  /** `retrieve`: returns the trace of upstream calls and the local epoch
      counter `n`, which is the number of epochs retrieved. The `Retriever`
      the source returns is not modelled. */
  method Retrieve(epochOk: nat -> bool, interruptAt: nat, validatorsOk: bool)
    returns (trace: seq<Event>, retrieved: nat)
    ensures trace == Attempts(epochOk, interruptAt, 0) + [ValidatorRefresh(validatorsOk)]
    ensures |trace| - 1 <= interruptAt
    ensures forall i :: 0 <= i < |trace| - 1 ==> trace[i] == EpochAttempt(i, epochOk(i))
    ensures forall i :: 0 <= i < retrieved ==> epochOk(i)
    ensures retrieved == |trace| - 1 || (retrieved == |trace| - 2 && !epochOk(retrieved))
    ensures retrieved < interruptAt ==> retrieved == |trace| - 2
  {
    var running := true;
    retrieved := 0;
    trace := [];
    while running && |trace| < interruptAt
      invariant |trace| <= interruptAt
      invariant forall i :: 0 <= i < retrieved ==> epochOk(i)
      invariant running ==> |trace| == retrieved
      invariant !running ==> |trace| == retrieved + 1 && !epochOk(retrieved)
      invariant running ==> trace + Attempts(epochOk, interruptAt, retrieved) == Attempts(epochOk, interruptAt, 0)
      invariant !running ==> trace == Attempts(epochOk, interruptAt, 0)
      decreases interruptAt - |trace|, running
    {
      var rest := Attempts(epochOk, interruptAt, retrieved);
      if epochOk(retrieved) {
        var step := [EpochAttempt(retrieved, true)];
        assert rest == step + Attempts(epochOk, interruptAt, retrieved + 1);
        assert trace + rest == (trace + step) + Attempts(epochOk, interruptAt, retrieved + 1);
        trace := trace + step;
        retrieved := retrieved + 1;
      } else {
        assert rest == [EpochAttempt(retrieved, false)];
        trace := trace + rest;
        running := false;
      }
    }
    var attempts := trace;
    assert attempts == Attempts(epochOk, interruptAt, 0);
    trace := trace + [ValidatorRefresh(validatorsOk)];
    assert forall i :: 0 <= i < |trace| - 1 ==> trace[i] == attempts[i];
  }
}

=== FILE: snapshot_writer.dfy ===
/** The static snapshot writer: every loaded `epochs` row becomes one
    artifact file named after its epoch number, and the meta record with the
    number of rows is written last.

    Each artifact goes through a buffered writer that is dropped without an
    explicit flush. Creating a file that fails aborts the run (`unwrap`), but
    the artifact's bytes reach the file only when the buffer is flushed on
    drop, and an error there is discarded: the run goes on. The model keeps
    these two effects apart, and also states the writer with an explicit
    flush, where a lost artifact aborts the run. */
module SnapshotWriter {
  import opened Ints
  import opened Decimal
  import opened Outcomes
  import opened Datastore

  const EpochsDir: string := "../web_static/public/data/epochs/"
  const MetaPath: string := "../web_static/public/data/epochs/meta.msg"

  datatype Artifact = EpochArtifact(row: EpochModel) | MetaArtifact(count: nat)

  datatype FileWrite = FileWrite(path: string, artifact: Artifact)

  /** A file the run created, and whether the serialized artifact reached it. */
  datatype CreatedFile = CreatedFile(write: FileWrite, stored: bool)

  /** The file system, given the files created before: whether creating a
      file at a path succeeds, and whether an artifact's buffered bytes reach
      its file when the buffer is flushed. */
  datatype FileSystem = FileSystem(
    creates: (seq<CreatedFile>, string) -> bool,
    stores: (seq<CreatedFile>, FileWrite) -> bool)

  /** The artifact file of an epoch: its decimal number, with a `.msg`
      extension, in the epochs directory. */
  function EpochPath(epoch: I64): (path: string)
    ensures |EpochsDir| + 4 < |path|
    ensures path[..|EpochsDir|] == EpochsDir
    ensures path[|path| - 4..] == ".msg"
    ensures IsIntText(path[|EpochsDir|..|path| - 4])
    ensures ParseInt(path[|EpochsDir|..|path| - 4]) == epoch
  {
    var name := IntString(epoch);
    ParseIntString(epoch);
    var path := EpochsDir + name + ".msg";
    assert path[|EpochsDir|..|path| - 4] == name;
    path
  }

  function EpochWrite(row: EpochModel): FileWrite {
    FileWrite(EpochPath(row.epoch), EpochArtifact(row))
  }

  /** The writes of a complete run, in order: one per row in query order,
      then the meta record counting the rows. */
  function PlannedWrites(rows: seq<EpochModel>): (plan: seq<FileWrite>)
    ensures |plan| == |rows| + 1
    ensures forall i :: 0 <= i < |rows| ==> plan[i] == EpochWrite(rows[i])
    ensures plan[|rows|] == FileWrite(MetaPath, MetaArtifact(|rows|))
  {
    seq(|rows|, i requires 0 <= i < |rows| => EpochWrite(rows[i])) + [FileWrite(MetaPath, MetaArtifact(|rows|))]
  }

  /** The writes behind a sequence of created files. */
  function Writes(files: seq<CreatedFile>): (ws: seq<FileWrite>)
    ensures |ws| == |files|
    ensures forall i :: 0 <= i < |files| ==> ws[i] == files[i].write
  {
    seq(|files|, i requires 0 <= i < |files| => files[i].write)
  }

  /** The loop as written, from the files created so far: each planned file
      is created (a failure ends the run), and its artifact is kept or lost as
      the drop-time flush succeeds or fails, without ending the run. */
  function WriteAll(plan: seq<FileWrite>, fs: FileSystem, files: seq<CreatedFile>): (r: seq<CreatedFile>)
    ensures |files| <= |r| <= |files| + |plan|
    ensures r[..|files|] == files
    ensures forall i :: |files| <= i < |r| ==> r[i].write == plan[i - |files|]
    ensures forall i :: |files| <= i < |r| ==> r[i].stored == fs.stores(r[..i], r[i].write)
    ensures forall i :: |files| <= i < |r| ==> fs.creates(r[..i], r[i].write.path)
    ensures |r| < |files| + |plan| ==> !fs.creates(r, plan[|r| - |files|].path)
    decreases |plan|
  {
    if plan == [] then files
    else if !fs.creates(files, plan[0].path) then files
    else
      var next := files + [CreatedFile(plan[0], fs.stores(files, plan[0]))];
      var r := WriteAll(plan[1..], fs, next);
      assert r[..|next|] == next;
      assert r[..|files|] == next[..|files|] == files;
      assert r[..|files|][..|files|] == files;
      r
  }

  /** The same loop with the buffer flushed, and the flush unwrapped, before
      the file is dropped: a lost artifact now ends the run, leaving its file
      created but empty. */
  function FlushedWriteAll(plan: seq<FileWrite>, fs: FileSystem, files: seq<CreatedFile>): (r: seq<CreatedFile>)
    ensures |files| <= |r| <= |files| + |plan|
    ensures r[..|files|] == files
    ensures forall i :: |files| <= i < |r| ==> r[i].write == plan[i - |files|]
    ensures forall i :: |files| <= i < |r| - 1 ==> r[i].stored
    ensures |r| > |files| ==> r[|r| - 1].stored == fs.stores(r[..|r| - 1], r[|r| - 1].write)
    ensures forall i :: |files| <= i < |r| ==> fs.creates(r[..i], r[i].write.path)
    ensures |r| < |files| + |plan| && (|r| == |files| || r[|r| - 1].stored) ==>
      !fs.creates(r, plan[|r| - |files|].path)
    decreases |plan|
  {
    if plan == [] then files
    else if !fs.creates(files, plan[0].path) then files
    else if !fs.stores(files, plan[0]) then
      var r := files + [CreatedFile(plan[0], false)];
      assert r[..|r| - 1] == files;
      r
    else
      var next := files + [CreatedFile(plan[0], true)];
      var r := FlushedWriteAll(plan[1..], fs, next);
      assert r[..|next|] == next;
      assert r[..|files|] == next[..|files|] == files;
      if |r| == |next| then
        assert r == next;
        assert r[..|r| - 1] == files;
        r
      else
        r
  }

  /** Artifacts are keyed by epoch number: two epochs share a path exactly
      when they are the same epoch. */
  lemma EpochPathInjective(a: I64, b: I64)
    ensures EpochPath(a) == EpochPath(b) <==> a == b
  {
    FrameCancels(EpochsDir, IntString(a), IntString(b), ".msg");
    IntStringInjective(a, b);
  }

  /** The meta path is never an epoch path: epoch names are numerals. */
  lemma MetaPathIsNotAnEpochPath(epoch: I64)
    ensures EpochPath(epoch) != MetaPath
  {
    assert MetaPath == EpochsDir + "meta.msg";
    assert EpochPath(epoch) == EpochsDir + (IntString(epoch) + ".msg");
    DistinctAfterPrefix(EpochsDir, IntString(epoch) + ".msg", "meta.msg");
  }

  /** A run that created the meta file created every planned file: the meta
      record can only be the last planned write. Whether the artifacts
      reached their files is another matter (`AsWrittenLosesContents`). */
  lemma MetaImpliesCreated(rows: seq<EpochModel>, files: seq<CreatedFile>, i: nat)
    requires Writes(files) <= PlannedWrites(rows)
    requires i < |files| && files[i].write.artifact.MetaArtifact?
    ensures Writes(files) == PlannedWrites(rows)
    ensures forall j :: 0 <= j < |rows| ==> files[j].write == EpochWrite(rows[j])
  {
    var plan := PlannedWrites(rows);
    assert Writes(files)[i] == plan[i];
    assert |files| == |plan|;
  }

  /** When every file can be created, the loop as written creates all of
      them, whatever becomes of their contents. */
  lemma {:induction false} AlwaysCreatedCompletes(plan: seq<FileWrite>, fs: FileSystem, files: seq<CreatedFile>)
    requires forall created, path :: fs.creates(created, path)
    ensures |WriteAll(plan, fs, files)| == |files| + |plan|
    decreases |plan|
  {
    if plan != [] {
      AlwaysCreatedCompletes(plan[1..], fs, files + [CreatedFile(plan[0], fs.stores(files, plan[0]))]);
    }
  }

  /** The loop as written can complete, meta record included, with no epoch
      artifact in its file: every file is created, but every epoch
      artifact's flush fails. */
  lemma AsWrittenLosesContents(rows: seq<EpochModel>)
    requires |rows| > 0
    ensures var fs := FileSystem((created: seq<CreatedFile>, path: string) => true, (created: seq<CreatedFile>, w: FileWrite) => w.artifact.MetaArtifact?);
      var files := WriteAll(PlannedWrites(rows), fs, []);
      && |files| == |rows| + 1
      && files[|rows|] == CreatedFile(FileWrite(MetaPath, MetaArtifact(|rows|)), true)
      && forall j :: 0 <= j < |rows| ==> files[j] == CreatedFile(EpochWrite(rows[j]), false)
  {
    var fs := FileSystem((created: seq<CreatedFile>, path: string) => true, (created: seq<CreatedFile>, w: FileWrite) => w.artifact.MetaArtifact?);
    AlwaysCreatedCompletes(PlannedWrites(rows), fs, []);
  }

  /** With the flush unwrapped, a meta record that reached its file means
      every epoch artifact reached its own, in query order. */
  lemma FlushedMetaImpliesAllStored(rows: seq<EpochModel>, fs: FileSystem, i: nat)
    ensures var files := FlushedWriteAll(PlannedWrites(rows), fs, []);
      i < |files| && files[i].write.artifact.MetaArtifact? && files[i].stored ==>
        |files| == |rows| + 1
        && forall j :: 0 <= j < |rows| ==> files[j] == CreatedFile(EpochWrite(rows[j]), true)
  {
    var plan := PlannedWrites(rows);
    var files := FlushedWriteAll(plan, fs, []);
    if i < |files| && files[i].write.artifact.MetaArtifact? && files[i].stored {
      FlushedStoredPrefix(plan, fs, i);
      assert files[i].write == plan[i];
      assert i == |rows|;
    }
  }

  /** With the flush unwrapped, a stored file means every file before it was
      created and stored as planned. */
  lemma FlushedStoredPrefix(plan: seq<FileWrite>, fs: FileSystem, i: nat)
    ensures var files := FlushedWriteAll(plan, fs, []);
      i < |files| && files[i].stored ==>
        forall k :: 0 <= k <= i ==> files[k] == CreatedFile(plan[k], true)
  {
    var files := FlushedWriteAll(plan, fs, []);
    if i < |files| && files[i].stored {
      forall k | 0 <= k <= i
        ensures files[k] == CreatedFile(plan[k], true)
      {
        assert files[k].write == plan[k];
        assert files[k].stored;
      }
    }
  }

  /** The loop as written, run from no files: the files created follow the
      plan, each artifact is kept exactly when its flush succeeds, and a run
      that stops short stopped at a file it could not create. */
  lemma WriteAllFromScratch(plan: seq<FileWrite>, fs: FileSystem)
    ensures var r := WriteAll(plan, fs, []);
      && Writes(r) == plan[..|r|]
      && (|r| < |plan| ==> !fs.creates(r, plan[|r|].path))
      && (forall i :: 0 <= i < |r| ==> fs.creates(r[..i], r[i].write.path))
      && forall i :: 0 <= i < |r| ==> r[i].stored == fs.stores(r[..i], r[i].write)
  {
    var r := WriteAll(plan, fs, []);
    assert forall i :: 0 <= i < |r| ==> Writes(r)[i] == plan[..|r|][i];
  }

  /** `WriteAllFromScratch`, stated about a run's result `files`. */
  lemma WrittenFiles(plan: seq<FileWrite>, fs: FileSystem, files: seq<CreatedFile>)
    requires files == WriteAll(plan, fs, [])
    ensures Writes(files) == plan[..|files|]
    ensures Writes(files) == plan <==> |files| == |plan|
    ensures |files| < |plan| ==> !fs.creates(files, plan[|files|].path)
    ensures forall i :: 0 <= i < |files| ==> fs.creates(files[..i], files[i].write.path)
    ensures forall i :: 0 <= i < |files| ==> files[i].stored == fs.stores(files[..i], files[i].write)
  {
    WriteAllFromScratch(plan, fs);
  }

  /** `persist_epochs`. `loaded` is the result of loading every `epochs` row
      (`None` when getting a connection or loading fails, which aborts before
      any file is created). Returns the files created, each with whether its
      artifact reached it, and whether the run created every planned file. */
  method PersistEpochs(loaded: Option<seq<EpochModel>>, fs: FileSystem)
    returns (files: seq<CreatedFile>, completed: bool)
    ensures loaded.None? ==> files == [] && !completed
    ensures loaded.Some? ==> files == WriteAll(PlannedWrites(loaded.value), fs, [])
    ensures loaded.Some? ==> Writes(files) <= PlannedWrites(loaded.value)
    ensures completed <==> loaded.Some? && Writes(files) == PlannedWrites(loaded.value)
    ensures forall i :: 0 <= i < |files| ==> fs.creates(files[..i], files[i].write.path)
    ensures forall i :: 0 <= i < |files| ==> files[i].stored == fs.stores(files[..i], files[i].write)
    ensures loaded.Some? && !completed ==>
      |files| < |PlannedWrites(loaded.value)| && !fs.creates(files, PlannedWrites(loaded.value)[|files|].path)
  {
    files := [];
    completed := false;
    if loaded.None? {
      return;
    }
    var rows := loaded.value;
    ghost var plan := PlannedWrites(rows);
    var i := 0;
    var aborted := false;
    while i < |rows| && !aborted
      invariant 0 <= i <= |rows|
      invariant |files| == i
      invariant WriteAll(plan[i..], fs, files) == WriteAll(plan, fs, [])
      invariant aborted ==> i < |rows| && !fs.creates(files, plan[i].path)
      decreases |rows| - i, if aborted then 0 else 1
    {
      var w := EpochWrite(rows[i]);
      assert plan[i..][0] == w;
      if !fs.creates(files, w.path) {
        aborted := true;
      } else {
        assert plan[i..][1..] == plan[i + 1..];
        files := files + [CreatedFile(w, fs.stores(files, w))];
        i := i + 1;
      }
    }
    if !aborted {
      var meta := FileWrite(MetaPath, MetaArtifact(|rows|));
      assert plan[i..] == [meta];
      if fs.creates(files, meta.path) {
        files := files + [CreatedFile(meta, fs.stores(files, meta))];
      }
    }
    WrittenFiles(plan, fs, files);
    completed := |files| == |rows| + 1;
  }
}

=== FILE: static_epochs.dfy ===
/** The read-only client of the static snapshot: artifact URLs, the
    all-or-nothing joined fetch, and page resolution. HTTP fetches and
    decoding are functions from URL to result; `Paginate` (which index pages
    a sorted request needs) is a parameter. */
module StaticEpochs {
  import opened Decimal
  import opened Outcomes
  import opened Pagination

  datatype SortBy = SortBy(id: string, desc: bool)

  /** The client: the base URL and the `count` of the meta record. */
  datatype Epochs = Epochs(baseUrl: string, count: nat)

  /** `Paginate::new(total_count, page_number, page_size, sort_by)` as a
      sequence of index-page numbers. */
  type Paginate = (nat, nat, nat, SortBy) -> seq<nat>

  /** The directory of every artifact under a base URL. */
  function EpochsRoot(baseUrl: string): string {
    baseUrl + "/data/epochs/"
  }

  /** An epoch artifact: the epoch's text, with a `.msg` extension, in the
      epochs directory. */
  function EpochUrl(baseUrl: string, epoch: string): (url: string)
    ensures |url| == |EpochsRoot(baseUrl)| + |epoch| + 4
    ensures url[..|EpochsRoot(baseUrl)|] == EpochsRoot(baseUrl)
    ensures url[|EpochsRoot(baseUrl)|..|url| - 4] == epoch
    ensures url[|url| - 4..] == ".msg"
  {
    var url := EpochsRoot(baseUrl) + epoch + ".msg";
    assert url[|EpochsRoot(baseUrl)|..|url| - 4] == epoch;
    url
  }

  /** A sort-index page: numbered from 1, under `s/{sortId}/` in the epochs
      directory; the page number reads back from the file name. */
  function SortedPageUrl(baseUrl: string, sortId: string, pageNumber: nat): (url: string)
    ensures var dir := EpochsRoot(baseUrl) + "s/" + sortId + "/";
      && |dir| + 4 < |url|
      && url[..|dir|] == dir
      && url[|url| - 4..] == ".msg"
      && IsNumeral(url[|dir|..|url| - 4])
      && ParseNat(url[|dir|..|url| - 4]) == pageNumber
  {
    var dir := EpochsRoot(baseUrl) + "s/" + sortId + "/";
    var name := NatString(pageNumber);
    ParseNatString(pageNumber);
    var url := dir + name + ".msg";
    assert url[|dir|..|url| - 4] == name;
    url
  }

  /** The meta record, `meta.msg` in the epochs directory. */
  function MetaUrl(baseUrl: string): (url: string)
    ensures |url| == |EpochsRoot(baseUrl)| + 8
    ensures url[..|EpochsRoot(baseUrl)|] == EpochsRoot(baseUrl)
    ensures url[|EpochsRoot(baseUrl)|..] == "meta.msg"
  {
    EpochsRoot(baseUrl) + "meta.msg"
  }

  /** Distinct epoch ids are fetched from distinct URLs. */
  lemma EpochUrlInjective(baseUrl: string, a: int, b: int)
    ensures EpochUrl(baseUrl, IntString(a)) == EpochUrl(baseUrl, IntString(b)) <==> a == b
  {
    FrameCancels(EpochsRoot(baseUrl), IntString(a), IntString(b), ".msg");
    IntStringInjective(a, b);
  }

  /** The three kinds of artifact never share a URL: after the common
      `/data/epochs/` an epoch URL continues with a digit or a minus sign, a
      sorted page with `s` and the meta record with `m`. */
  lemma ArtifactUrlsDisjoint(baseUrl: string, id: int, sortId: string, pageNumber: nat)
    ensures MetaUrl(baseUrl) != EpochUrl(baseUrl, IntString(id))
    ensures SortedPageUrl(baseUrl, sortId, pageNumber) != EpochUrl(baseUrl, IntString(id))
    ensures SortedPageUrl(baseUrl, sortId, pageNumber) != MetaUrl(baseUrl)
  {
    var dir := EpochsRoot(baseUrl);
    var epochTail := IntString(id) + ".msg";
    var sortedTail := "s/" + sortId + "/" + NatString(pageNumber) + ".msg";
    assert EpochUrl(baseUrl, IntString(id)) == dir + epochTail;
    assert SortedPageUrl(baseUrl, sortId, pageNumber) == dir + sortedTail;
    assert MetaUrl(baseUrl) == dir + "meta.msg";
    DistinctAfterPrefix(dir, "meta.msg", epochTail);
    DistinctAfterPrefix(dir, sortedTail, epochTail);
    DistinctAfterPrefix(dir, sortedTail, "meta.msg");
  }

  /** `try_join_all` over one fetch per URL, as a sequential map: the result
      is every value in URL order when all fetches succeed, and otherwise the
      error of some failed fetch. */
  function JoinAll<T, E>(urls: seq<string>, fetch: string -> Result<T, E>): (r: Result<seq<T>, E>)
    ensures r.Ok? <==> forall i :: 0 <= i < |urls| ==> fetch(urls[i]).Ok?
    ensures r.Ok? ==> |r.value| == |urls| && forall i :: 0 <= i < |urls| ==> fetch(urls[i]) == Ok(r.value[i])
    ensures r.Err? ==> exists i :: 0 <= i < |urls| && fetch(urls[i]) == Err(r.error)
    decreases |urls|
  {
    if urls == [] then Ok([])
    else
      match fetch(urls[0])
      case Err(e) => Err(e)
      case Ok(v) =>
        match JoinAll(urls[1..], fetch)
        case Err(e) => Err(e)
        case Ok(vs) => Ok([v] + vs)
  }

  /** `build`: fetches the meta record and keeps its count. */
  function Build<E>(baseUrl: string, fetchMeta: string -> Result<nat, E>): (r: Result<Epochs, E>)
    ensures r.Ok? <==> fetchMeta(MetaUrl(baseUrl)).Ok?
    ensures r.Ok? ==> r.value == Epochs(baseUrl, fetchMeta(MetaUrl(baseUrl)).value)
    ensures r.Err? ==> fetchMeta(MetaUrl(baseUrl)) == Err(r.error)
  {
    match fetchMeta(MetaUrl(baseUrl))
    case Ok(count) => Ok(Epochs(baseUrl, count))
    case Err(e) => Err(e)
  }

  /** The index pages a sorted request fetches: `Paginate` is asked with the
      1-based page number `pageIndex + 1`. */
  function IndexPageUrls(e: Epochs, pageIndex: nat, pageSize: nat, sortBy: SortBy, paginate: Paginate): (urls: seq<string>)
    ensures var numbers := paginate(e.count, pageIndex + 1, pageSize, sortBy);
      && |urls| == |numbers|
      && forall i :: 0 <= i < |urls| ==> urls[i] == SortedPageUrl(e.baseUrl, sortBy.id, numbers[i])
  {
    var numbers := paginate(e.count, pageIndex + 1, pageSize, sortBy);
    seq(|numbers|, i requires 0 <= i < |numbers| => SortedPageUrl(e.baseUrl, sortBy.id, numbers[i]))
  }

  /** The ids of the epochs on a page. Unsorted: the computed range.
      Sorted: the concatenated index pages, unchanged when ascending, and
      reversed, skipped and truncated when descending. Any failed index-page
      fetch fails the whole request. */
  function PageIds<E>(e: Epochs, pageIndex: nat, pageSize: nat, sortBy: Option<SortBy>,
                      paginate: Paginate, fetchIndexPage: string -> Result<seq<int>, E>): (r: Result<seq<int>, E>)
    ensures sortBy.None? ==> r == Ok(UnsortedIds(e.count, pageIndex, pageSize))
    ensures sortBy.Some? ==>
      var urls := IndexPageUrls(e, pageIndex, pageSize, sortBy.value, paginate);
      var pages := JoinAll(urls, fetchIndexPage);
      && (r.Ok? <==> forall i :: 0 <= i < |urls| ==> fetchIndexPage(urls[i]).Ok?)
      && (r.Err? ==> r == Err(pages.error))
      && (r.Ok? && !sortBy.value.desc ==> r.value == Flatten(pages.value))
      && (r.Ok? && sortBy.value.desc ==>
            r.value == DescendingIds(Flatten(pages.value), DescendingSkip(e.count, pageIndex), pageSize))
  {
    match sortBy
    case None => Ok(UnsortedIds(e.count, pageIndex, pageSize))
    case Some(s) =>
      match JoinAll(IndexPageUrls(e, pageIndex, pageSize, s, paginate), fetchIndexPage)
      case Err(err) => Err(err)
      case Ok(pages) =>
        if s.desc then Ok(DescendingIds(Flatten(pages), DescendingSkip(e.count, pageIndex), pageSize))
        else Ok(Flatten(pages))
  }

  /** The URLs of the epoch artifacts of a list of ids, in order. */
  function EpochUrls(baseUrl: string, ids: seq<int>): (urls: seq<string>)
    ensures |urls| == |ids|
    ensures forall i :: 0 <= i < |ids| ==> urls[i] == EpochUrl(baseUrl, IntString(ids[i]))
  {
    seq(|ids|, i requires 0 <= i < |ids| => EpochUrl(baseUrl, IntString(ids[i])))
  }

  /** `page`: resolves the ids, then fetches every epoch artifact. The
      result is all-or-nothing and keeps the order of the ids. */
  function Page<V, E>(e: Epochs, pageIndex: nat, pageSize: nat, sortBy: Option<SortBy>, paginate: Paginate,
                      fetchIndexPage: string -> Result<seq<int>, E>, fetchEpoch: string -> Result<V, E>): (r: Result<seq<V>, E>)
    ensures var ids := PageIds(e, pageIndex, pageSize, sortBy, paginate, fetchIndexPage);
      && (ids.Err? ==> r == Err(ids.error))
      && (ids.Ok? ==>
            && (r.Ok? <==> forall i :: 0 <= i < |ids.value| ==> fetchEpoch(EpochUrl(e.baseUrl, IntString(ids.value[i]))).Ok?)
            && (r.Ok? ==> |r.value| == |ids.value|)
            && (r.Ok? ==> forall i :: 0 <= i < |ids.value| ==>
                  fetchEpoch(EpochUrl(e.baseUrl, IntString(ids.value[i]))) == Ok(r.value[i])))
  {
    match PageIds(e, pageIndex, pageSize, sortBy, paginate, fetchIndexPage)
    case Err(err) => Err(err)
    case Ok(ids) => JoinAll(EpochUrls(e.baseUrl, ids), fetchEpoch)
  }
}
